=== FILE: README.md ===
# VAD segments to diarization manifest — a Dafny model

`scripts/rttm_to_manifest.py` turns voice-activity-detection output files
into a JSON-lines manifest for speaker diarization. For each VAD file it
reads every line as a segment `(start, duration, activity)`, folds the
segments left to right into merged speech spans, and writes one record
`{audio_filepath, offset, duration, label: "UNK"}` per span.

This project models that per-file core of `write_manifest`:

- **Line reading** (`Tokens`, `Segments`, `Decimal`). A line is split on
  whitespace exactly as `line.strip().split()` does. The layout is then
  picked by field count. More than three fields is the RTTM-like layout, with
  start, duration and activity at fields 3, 4 and 7. Otherwise it is the short
  layout, with fields 0, 1 and 2. So a line must have exactly 3 fields or at
  least 8. A blank line, or one with 1, 2 or 4 to 7 fields, fails with a
  missing-field error, as Python's `IndexError` does, unless a time field
  read before the missing one fails to convert first: errors come in
  Python's left-to-right evaluation order, so `abc` and `a b c x` fail on
  the field that is not a number.
- **Times** are integer milliseconds. The source rounds start and duration
  to three decimals before merging. After that rounding every value is a
  whole number of milliseconds, so arithmetic on them is exact. Reading a
  time field is a parameter of the parser (`string -> Option<int>`).
  `Decimal.ParseMs` is a concrete reader. `Decimal.FormatMs` is the
  three-decimal rendering, and the two round-trip.
- **The merger** (`Merger`, `MergeProperties`). The current span starts as
  the sentinel `(-1, -1)` in seconds, that is `(-1000, -1000)` ms. If a
  current span exists and a segment starts strictly after its end, the span
  is flushed and the segment starts a new one. Otherwise the segment either
  replaces the sentinel or widens the span to the hull
  `(min of starts, max of ends)`. After the last line the span is flushed
  once more, unconditionally.
- **Records** (`Manifest`). Each span becomes one record with
  `offset = start`, `duration = end - start` and label `"UNK"`. A line that
  cannot be read aborts the run. Records already flushed for that file (and
  for earlier files) stay written, and the span in progress is lost.
  `Manifest.WriteFile` is the loop as written, with mutable state, and is
  proved equal to the functional `Manifest.ConvertFile`.

Three behaviours of the code are worth stating plainly:

- An empty file flushes the sentinel: it gives one record with offset -1 s
  (-1000 ms) and duration 0 (`MergeProperties.EmptyFile`,
  `Scenarios.EmptyFileRecord`).
- The gap test on line 50 also needs `time_tup[0] >= 0`. A segment starting
  at exactly -1 s is taken for the sentinel and replaced by the next segment
  (`MergeProperties.SentinelCollision`). A current span with any other
  negative start, such as -0.001 s, is never flushed on a gap: later segments
  widen it (`MergeProperties.NegativeStartWidens`) until a segment at exactly
  -1 s pulls its start to -1 s and makes it the sentinel case. The final
  flush after the last line still writes it. Neither happens when starts are
  non-negative.
- Output is in time order only for input sorted by start
  (`MergeProperties.SortedOutput`, `MergeProperties.UnsortedCounterexample`).

## Model

| member | source | states |
|---|---|---|
| Tokens.Split | scripts/rttm_to_manifest.py:42 | every field produced is non-empty and free of whitespace |
| Tokens.SplitJoin | scripts/rttm_to_manifest.py:42 | splitting fields joined by single spaces gives the same fields back |
| Tokens.SplitInterleave | scripts/rttm_to_manifest.py:42 | splitting fields laid out with any whitespace (tabs, runs of spaces, leading and trailing whitespace) gives the same fields back, in order |
| Tokens.TrimStart | scripts/rttm_to_manifest.py:42 | `strip()` drops exactly the leading whitespace: the result is a suffix, everything removed is whitespace, and it does not start with whitespace |
| Tokens.TrimEnd | scripts/rttm_to_manifest.py:42 | `strip()` drops exactly the trailing whitespace |
| Tokens.StripIrrelevant | scripts/rttm_to_manifest.py:42 | `line.strip().split()` gives the same fields as `line.split()` |
| Decimal.FormatMs | scripts/rttm_to_manifest.py:48 | the three-decimal rendering has exactly three digits after the point and a minus sign exactly for negative values |
| Decimal.FormatThenParse | scripts/rttm_to_manifest.py:48 | re-reading a three-decimal rendering gives the same milliseconds, so re-rounding an already rounded time is the identity |
| Decimal.ParseMs | scripts/rttm_to_manifest.py:44-48 | a time field read by `float` and rounded to three decimals, in milliseconds; a field that reads is non-empty, and a negative value comes only from a leading minus sign |
| Decimal.ReadSigned | scripts/rttm_to_manifest.py:44-48 | a field `-whole.frac` reads as minus (whole seconds times 1000 plus the rounded fraction), and `+whole.frac` as the unsigned value itself |
| Decimal.ReadDecimal | scripts/rttm_to_manifest.py:44-48 | a field `whole.frac` reads as whole seconds times 1000 plus the fraction rounded to milliseconds |
| Segments.ParseFields | scripts/rttm_to_manifest.py:43-46 | a line reads exactly when it has 3 or at least 8 fields and both time fields convert; the segment is then fields 3, 4, 7 (more than 3 fields) or 0, 1, 2; a missing-field error names an index past the end, and a conversion error names a field that fails to convert |
| Merger.Step | scripts/rttm_to_manifest.py:50-61 | one loop iteration flushes at most one span, exactly when the line-50 test holds; flushed spans are never changed; the flushed span is the old current span; the new segment always lies inside the new current span |
| Merger.Merge | scripts/rttm_to_manifest.py:62-66 | every file yields at least one span, because the final flush is unconditional |
| MergeProperties.EmptyFile | scripts/rttm_to_manifest.py:40 | a file with no lines yields the sentinel span `(-1, -1)` s, that is `(-1000, -1000)` ms |
| MergeProperties.SingleSegment | scripts/rttm_to_manifest.py:58-59 | a single segment yields exactly its own span |
| MergeProperties.TwoSegments | scripts/rttm_to_manifest.py:50-61 | two segments give their hull when the second starts no later than the first ends (touching included), and two separate spans otherwise |
| MergeProperties.MergeAppend | scripts/rttm_to_manifest.py:50-61 | appending a segment adds a new span exactly when it starts strictly after the last span's end; otherwise it widens the last span to the hull and leaves the earlier spans alone |
| MergeProperties.FoldProper | scripts/rttm_to_manifest.py:56-61 | with non-negative times, the current span (after at least one segment) and every flushed span start at or after 0 and do not end before they start |
| MergeProperties.NonNegativeDurations | scripts/rttm_to_manifest.py:52-63 | with non-negative times, every emitted duration is at least 0 |
| MergeProperties.Grows | scripts/rttm_to_manifest.py:56-61 | spans only grow until flushed: spans already flushed stay in place, and an earlier current span lies inside the span at the same position later |
| MergeProperties.Coverage | scripts/rttm_to_manifest.py:56-61 | every segment lies inside the emitted span that absorbed it, and later segments are absorbed by the same or a later span |
| MergeProperties.FoldAttained | scripts/rttm_to_manifest.py:56-61 | after each prefix of the input, every span's start is some segment's start and its end is some segment's end |
| MergeProperties.Tight | scripts/rttm_to_manifest.py:56-61 | for a non-empty file, no emitted span reaches beyond its segments: it starts at some segment's start and ends at some segment's end |
| MergeProperties.CountIsGapsPlusOne | scripts/rttm_to_manifest.py:50-66 | the number of records is one more than the number of segments that triggered a gap flush |
| MergeProperties.ActivityIgnored | scripts/rttm_to_manifest.py:44-61 | two inputs with the same times and any activity labels merge identically |
| MergeProperties.ExtendIsUnion | scripts/rttm_to_manifest.py:50-61 | for a segment starting inside or after the current span, the widened span is exactly the union of the two (as sets of instants) if and only if the segment starts no later than the span ends |
| MergeProperties.SortedRunning | scripts/rttm_to_manifest.py:50-61 | on sorted input, the current span starts no later than the latest segment and ends at the greatest end seen so far |
| MergeProperties.SortedFold | scripts/rttm_to_manifest.py:50-61 | on sorted input, the spans so far, the current one included, are separated by strict gaps |
| MergeProperties.SortedStep | scripts/rttm_to_manifest.py:50-61 | one step on a segment starting no earlier than the current span: the span ends at the greater of the two ends, and the spans stay separated by strict gaps |
| MergeProperties.SortedOutput | scripts/rttm_to_manifest.py:50-61 | on sorted input, the emitted spans are in time order, and each ends strictly before any later one starts |
| MergeProperties.SeparatedOrdered | scripts/rttm_to_manifest.py:50-56 | neighbour-wise strict gaps between proper spans give strict gaps between any two spans |
| MergeProperties.SortedGapIff | scripts/rttm_to_manifest.py:50 | on sorted input, the line-50 flush fires exactly at a segment that starts after every earlier segment has ended |
| MergeProperties.SortedCount | scripts/rttm_to_manifest.py:50-66 | on sorted input, the record count is one more than the number of segments that start after everything before them has ended |
| MergeProperties.AsSegs | scripts/rttm_to_manifest.py:52-53 | turning spans back into segments keeps each span exactly |
| MergeProperties.SeparatedFold | scripts/rttm_to_manifest.py:50-56 | spans with strict gaps between them, fed back as segments, each flush the previous one |
| MergeProperties.SeparatedIsFixpoint | scripts/rttm_to_manifest.py:50-66 | spans separated by strict gaps are merged back to themselves |
| MergeProperties.MergeIdempotent | scripts/rttm_to_manifest.py:40-66 | merging again the output of a sorted file gives the same spans; for an empty file the sentinel span comes back as itself |
| MergeProperties.UnsortedCounterexample | scripts/rttm_to_manifest.py:58-61 | without sorted input, the output can be out of order and overlapping, and the hull can cover silence that no segment covers |
| MergeProperties.NegativeStartWidens | scripts/rttm_to_manifest.py:50-61 | a current span starting at -0.001 s (negative, but not the sentinel's -1 s) fails the `time_tup[0] >= 0` half of the gap test and is not replaced either, so a far-away later segment widens it instead of starting a new span |
| MergeProperties.SentinelCollision | scripts/rttm_to_manifest.py:50-59 | a segment starting at -1 s (-1000 ms) is mistaken for the sentinel and its time is lost |
| Manifest.Records | scripts/rttm_to_manifest.py:52-53 | one record per span, with the file's audio path and label "UNK"; each record's offset and duration describe exactly its span |
| Manifest.ParseLines | scripts/rttm_to_manifest.py:41-46 | either every line reads, in order, or the result names the first line that fails, its error, and the segments of the lines before it |
| Manifest.ConvertFile | scripts/rttm_to_manifest.py:40-66 | a file is written completely exactly when every line reads, and then it has at least one record; otherwise it names the first failing line; every record has the file's path and label "UNK" |
| Manifest.ParseLinesStops | scripts/rttm_to_manifest.py:41-46 | reading stops at the first failing line |
| Manifest.AbortKeepsFlushed | scripts/rttm_to_manifest.py:50-56 | after a parse error the file holds exactly the records the lines before it would give, minus the span that was still open |
| Manifest.Absorb | scripts/rttm_to_manifest.py:50-61 | the imperative loop body updates `time_tup` and the written records as one step of the fold does |
| Manifest.WriteFile | scripts/rttm_to_manifest.py:40-66 | the imperative per-file loop, with early exit on a parse error, produces exactly `ConvertFile` |
| Manifest.RunFiles | scripts/rttm_to_manifest.py:36-66 | given what each file converts to, the run completes exactly when every file is written whole; otherwise it names the first aborted file, its line and error, and keeps the records of the files up to and including it |
| Manifest.WriteManifest | scripts/rttm_to_manifest.py:36-66 | the run completes exactly when every file converts, and then writes every file's records in order; otherwise it stops at the first failing file (every earlier file completes), after writing the earlier files' records and that file's flushed ones |
| Scenarios.LongLine | scripts/rttm_to_manifest.py:43-44 | `SPEAKER file 1 2.000 1.500 <NA> <NA> speech <NA> <NA>` reads as start 2000 ms, duration 1500 ms, activity "speech" |
| Scenarios.ShortLineRounds | scripts/rttm_to_manifest.py:45-48 | `5.123456 2.0 speech` reads as start 5123 ms, duration 2000 ms |
| Scenarios.ReadsRounded | scripts/rttm_to_manifest.py:48 | `5.123456` is rounded to 5123 ms |
| Scenarios.Overlapping | scripts/rttm_to_manifest.py:58-66 | segments `[0, 1000]` and `[500, 1500]` give one record, offset 0 and duration 1500 |
| Scenarios.Separate | scripts/rttm_to_manifest.py:50-66 | segments `[0, 1000]` and `[3000, 4000]` give two records, in order |
| Scenarios.EmptyFileRecord | scripts/rttm_to_manifest.py:40-64 | an empty file writes one record, offset -1 s (-1000 ms) and duration 0 |
| Scenarios.FiveFieldsFail | scripts/rttm_to_manifest.py:43-44 | a five-field line takes the long layout and fails for lack of an 8th field |
| Scenarios.SingleLineFile | scripts/rttm_to_manifest.py:40-66 | a file with one readable line writes exactly that segment's record |
| Scenarios.OneLineFile | scripts/rttm_to_manifest.py:40-66 | the file `5.123456 2.0 speech` writes one record, offset 5123 and duration 2000 |

## Left out

- Finding the VAD files (`glob` on `*.rttm`), opening, reading and closing them, and the order `glob` returns: `Manifest.WriteManifest` takes the files as a sequence, in the order given.
- The audio path (`os.path.basename`, `split('.')`, `os.path.join`, the `.wav` suffix): each file's audio path is an opaque string.
- JSON serialisation and newline writing: a record holds integer milliseconds. Python writes `offset` as a float's shortest repr, such as `0.5`, not `0.500`.
- Argument parsing and the final log message: command-line glue.
- Decimal.ParseMs: Python's `float` also accepts exponents, `inf`, `nan`, underscores and non-ASCII digits, and this reader rejects them. Beyond three decimals it rounds half up. Python rounds the nearest binary double instead, so decimal ties that are not exact in binary (such as `1.0005`, which Python renders as `1.000` and this reader as 1001 ms) and values too large for double precision can come out differently. The parser itself takes any reader as a parameter.
- Floating-point arithmetic: the source computes `start + dur` and `end - start` on binary doubles (lines 52, 56, 59, 61, 63), and the line-50 comparison uses those unrounded sums. The model uses exact millisecond sums. A sum that rounds down in binary makes the source see a gap the exact values do not: 0.7 + 0.1 is 0.7999999999999999 in doubles, so for lines `0.7 0.1 x` and `0.8 0.5 x` the source writes two records where the model merges the touching segments into one.
- Python's `-0.0` (from a field like `-0`) is read as 0.

=== FILE: decimal.dfy ===
/** Reading and writing times as integer milliseconds. The source converts a
    field with `float(...)` and immediately rounds it to three decimals with
    `float("{:.3f}".format(...))`; here the value after that rounding is the
    integer number of milliseconds, and `FormatMs` is the three-decimal
    rendering. */
module Decimal {
  import opened Wrappers
  import Tokens

  predicate IsDigit(c: char) {
    '0' <= c <= '9'
  }

  predicate AllDigits(s: string) {
    forall i :: 0 <= i < |s| ==> IsDigit(s[i])
  }

  function DigitValue(c: char): (d: nat)
    requires IsDigit(c)
    ensures d < 10
  {
    (c as int) - ('0' as int)
  }

  function DigitChar(d: nat): (c: char)
    requires d < 10
    ensures IsDigit(c) && DigitValue(c) == d
  {
    ('0' as int + d) as char
  }

  /** The number a string of decimal digits denotes. */
  function DigitsValue(s: string): nat
    requires AllDigits(s)
  {
    if |s| == 0 then 0 else 10 * DigitsValue(s[..|s| - 1]) + DigitValue(s[|s| - 1])
  }

  /** The shortest decimal rendering of a natural number. */
  function NatDigits(n: nat): (r: string)
    ensures |r| > 0 && AllDigits(r)
  {
    if n < 10 then [DigitChar(n)] else NatDigits(n / 10) + [DigitChar(n % 10)]
  }

  function Pow10(k: nat): nat
  {
    if k == 0 then 1 else 10 * Pow10(k - 1)
  }

  /** Milliseconds contributed by the digits after the decimal point: exact
      for up to three digits, rounded half up beyond. */
  function FractionMs(f: string): nat
    requires AllDigits(f)
  {
    if |f| <= 3 then DigitsValue(f) * Pow10(3 - |f|)
    else DigitsValue(f[..3]) + (if DigitValue(f[3]) >= 5 then 1 else 0)
  }

  /** A non-negative decimal `digits`, `digits.`, `.digits` or
      `digits.digits`, in milliseconds. */
  function UnsignedMs(s: string): (r: Option<int>)
    ensures r.Some? ==> r.value >= 0
  {
    var k := Tokens.Run(s, IsDigit);
    var whole := DigitsValue(s[..k]);
    if k == |s| then
      if k > 0 then Some(whole * 1000) else None
    else if s[k] == '.' && AllDigits(s[k + 1..]) && (k > 0 || |s| > k + 1) then
      Some(whole * 1000 + FractionMs(s[k + 1..]))
    else None
  }

  /** A time field converted by `float` and rounded to three decimals, in
      milliseconds; `None` where the conversion raises. */
  function ParseMs(s: string): (r: Option<int>)
    ensures r.Some? ==> |s| > 0
    ensures r.Some? && r.value < 0 ==> s[0] == '-'
  {
    if |s| > 0 && (s[0] == '-' || s[0] == '+') then
      match UnsignedMs(s[1..])
      case None => None
      case Some(v) =>
        Some(if s[0] == '-' then -v else v)
    else
      UnsignedMs(s)
  }

  /** `"{:.3f}".format` of a millisecond value. */
  function FormatMs(ms: int): (r: string)
    ensures |r| >= 5
    ensures r[|r| - 4] == '.' && AllDigits(r[|r| - 3..])
    ensures (ms < 0) == (r[0] == '-')
  {
    var a := if ms < 0 then -ms else ms;
    var whole := NatDigits(a / 1000);
    var rem := a % 1000;
    var frac := [DigitChar(rem / 100), DigitChar(rem / 10 % 10), DigitChar(rem % 10)];
    assert (whole + "." + frac)[|whole| + 1..] == frac;
    (if ms < 0 then "-" else "") + whole + "." + frac
  }

  lemma {:induction false} NatDigitsValue(n: nat)
    ensures DigitsValue(NatDigits(n)) == n
  {
    if n >= 10 {
      NatDigitsValue(n / 10);
      var r := NatDigits(n);
      assert r[..|r| - 1] == NatDigits(n / 10);
    }
  }

  lemma WholeDigits(whole: string, rest: string)
    requires AllDigits(whole) && |rest| > 0 && !IsDigit(rest[0])
    ensures Tokens.Run(whole + rest, IsDigit) == |whole|
  {
    var s := whole + rest;
    forall i | 0 <= i < |whole|
      ensures IsDigit(s[i])
    {
      assert s[i] == whole[i];
    }
    Tokens.RunUnique(s, IsDigit, |whole|);
  }

  lemma UnsignedDecimal(whole: string, frac: string)
    requires AllDigits(whole) && AllDigits(frac) && |whole| + |frac| > 0
    ensures UnsignedMs(whole + "." + frac).Some?
    ensures UnsignedMs(whole + "." + frac).value == DigitsValue(whole) * 1000 + FractionMs(frac)
  {
    var s := whole + ("." + frac);
    assert s == whole + "." + frac;
    WholeDigits(whole, "." + frac);
    assert s[..|whole|] == whole && s[|whole| + 1..] == frac;
  }

  /** What a plain `digits.digits` field reads as. */
  lemma ReadDecimal(whole: string, frac: string)
    requires |whole| > 0 && AllDigits(whole) && AllDigits(frac)
    ensures ParseMs(whole + "." + frac).Some?
    ensures ParseMs(whole + "." + frac).value == DigitsValue(whole) * 1000 + FractionMs(frac)
  {
    var s := whole + "." + frac;
    assert ParseMs(s) == UnsignedMs(s) by {
      assert s[0] == whole[0];
    }
    UnsignedDecimal(whole, frac);
  }

  /** A minus sign in front of an unsigned field negates its reading. */
  lemma NegatedMs(u: string)
    requires UnsignedMs(u).Some?
    ensures ParseMs("-" + u).Some?
    ensures ParseMs("-" + u).value == -UnsignedMs(u).value
  {
    assert ("-" + u)[1..] == u;
  }

  /** A plus sign in front of an unsigned field changes nothing. */
  lemma PlusMs(u: string)
    requires UnsignedMs(u).Some?
    ensures ParseMs("+" + u).Some?
    ensures ParseMs("+" + u).value == UnsignedMs(u).value
  {
    assert ("+" + u)[1..] == u;
  }

  /** What a signed `-digits.digits` or `+digits.digits` field reads as:
      the unsigned reading, negated for a minus sign. */
  lemma ReadSigned(whole: string, frac: string)
    requires AllDigits(whole) && AllDigits(frac) && |whole| + |frac| > 0
    ensures ParseMs("-" + (whole + "." + frac)).Some?
    ensures ParseMs("-" + (whole + "." + frac)).value == -(DigitsValue(whole) * 1000 + FractionMs(frac))
    ensures ParseMs("+" + (whole + "." + frac)).Some?
    ensures ParseMs("+" + (whole + "." + frac)).value == DigitsValue(whole) * 1000 + FractionMs(frac)
  {
    UnsignedDecimal(whole, frac);
    NegatedMs(whole + "." + frac);
    PlusMs(whole + "." + frac);
  }

  /** The three fraction digits `FormatMs` writes denote the remainder. */
  lemma ThreeDigitsValue(rem: nat)
    requires rem < 1000
    ensures DigitsValue([DigitChar(rem / 100), DigitChar(rem / 10 % 10), DigitChar(rem % 10)]) == rem
  {
    var frac := [DigitChar(rem / 100), DigitChar(rem / 10 % 10), DigitChar(rem % 10)];
    assert frac[..2][..1] == [frac[0]];
    assert DigitsValue(frac[..1]) == rem / 100;
    assert DigitsValue(frac[..2]) == 10 * (rem / 100) + rem / 10 % 10;
    assert rem / 10 == 10 * (rem / 100) + rem / 10 % 10;
  }

  /** Reading back the unsigned part of a three-decimal rendering. */
  lemma UnsignedFormat(a: nat)
    ensures var rem := a % 1000;
            UnsignedMs(NatDigits(a / 1000) + "." + [DigitChar(rem / 100), DigitChar(rem / 10 % 10), DigitChar(rem % 10)]) == Some(a)
  {
    var whole := NatDigits(a / 1000);
    var rem := a % 1000;
    var frac := [DigitChar(rem / 100), DigitChar(rem / 10 % 10), DigitChar(rem % 10)];
    var u := whole + "." + frac;
    Tokens.RunUnique(u, IsDigit, |whole|);
    assert u[..|whole|] == whole;
    assert u[|whole| + 1..] == frac;
    NatDigitsValue(a / 1000);
    ThreeDigitsValue(rem);
    assert FractionMs(frac) == rem;
  }

  /** Reading back a three-decimal rendering gives the same milliseconds:
      the re-rounding on lines 48, 52 and 63 leaves a millisecond value
      unchanged. */
  lemma FormatThenParse(ms: int)
    ensures ParseMs(FormatMs(ms)) == Some(ms)
  {
    var a := if ms < 0 then -ms else ms;
    var rem := a % 1000;
    var u := NatDigits(a / 1000) + "." + [DigitChar(rem / 100), DigitChar(rem / 10 % 10), DigitChar(rem % 10)];
    assert FormatMs(ms) == (if ms < 0 then "-" else "") + u;
    UnsignedFormat(a);
    if ms < 0 {
      assert FormatMs(ms)[1..] == u;
    } else {
      assert FormatMs(ms) == u;
      assert IsDigit(u[0]) && u[0] != '-' && u[0] != '+';
      assert ParseMs(u) == UnsignedMs(u);
    }
  }
}

=== FILE: manifest.dfy ===
/** What `write_manifest` writes: one record per emitted span, labelled
    "UNK", for each VAD file in turn. A line that cannot be read aborts the
    whole run; the records already written stay in the manifest. */
module Manifest {
  import opened Wrappers
  import opened Segments
  import opened Merger

  /** The label every record carries (lines 53 and 64). */
  const UnknownLabel := "UNK"

  /** One JSON line of the manifest; `offset` and `duration` in milliseconds. */
  datatype Record = Record(audioPath: string, offset: int, duration: int, tag: string)

  function ToRecord(audioPath: string, sp: Span): Record
  {
    Record(audioPath, sp.start, sp.end - sp.start, UnknownLabel)
  }

  /** The span a record describes. */
  function SpanOf(r: Record): Span
  {
    Span(r.offset, r.offset + r.duration)
  }

  function Records(audioPath: string, spans: seq<Span>): (rs: seq<Record>)
    ensures |rs| == |spans|
    ensures forall j :: 0 <= j < |rs| ==> rs[j].audioPath == audioPath && rs[j].tag == UnknownLabel
    ensures forall j :: 0 <= j < |rs| ==> SpanOf(rs[j]) == spans[j]
  {
    seq(|spans|, j requires 0 <= j < |spans| => ToRecord(audioPath, spans[j]))
  }

  /** Reads one line; the source's reader is `LineReader`. */
  type LineParser = string -> Result<Seg, ParseError>

  /** Lines 42-48: fields by layout, times through `num`. */
  function LineReader(num: string -> Option<int>): LineParser
  {
    line => ParseLine(line, num)
  }

  /** The lines of a file read in order: all of them, or those before the
      first line that cannot be read. */
  datatype Parsed = AllParsed(segs: seq<Seg>) | FailedAt(line: nat, before: seq<Seg>, error: ParseError)

  function ParseLines(lines: seq<string>, parse: LineParser): (r: Parsed)
    ensures r.AllParsed? ==> |r.segs| == |lines|
    ensures r.AllParsed? ==> forall i :: 0 <= i < |lines| ==> parse(lines[i]) == Success(r.segs[i])
    ensures r.FailedAt? ==> r.line < |lines| && |r.before| == r.line
    ensures r.FailedAt? ==> forall i :: 0 <= i < r.line ==> parse(lines[i]) == Success(r.before[i])
    ensures r.FailedAt? ==> parse(lines[r.line]) == Failure(r.error)
    decreases |lines|
  {
    if |lines| == 0 then AllParsed([])
    else
      match ParseLines(lines[..|lines| - 1], parse)
      case FailedAt(k, before, e) => FailedAt(k, before, e)
      case AllParsed(segs) =>
        match parse(lines[|lines| - 1])
        case Success(s) => AllParsed(segs + [s])
        case Failure(e) => FailedAt(|lines| - 1, segs, e)
  }

  /** What one VAD file contributes to the manifest. */
  datatype FileOutcome =
    | Written(records: seq<Record>)
    | Aborted(records: seq<Record>, line: nat, error: ParseError)

  /** Lines 40-66 for one file. On a failing line the spans flushed so far
      have already been written; the span in progress is lost. */
  function ConvertFile(audioPath: string, lines: seq<string>, parse: LineParser): (r: FileOutcome)
    ensures r.Written? <==> forall i :: 0 <= i < |lines| ==> parse(lines[i]).Success?
    ensures r.Written? ==> |r.records| >= 1
    ensures r.Aborted? ==> r.line < |lines| && parse(lines[r.line]) == Failure(r.error)
    ensures r.Aborted? ==> forall i :: 0 <= i < r.line ==> parse(lines[i]).Success?
    ensures forall j :: 0 <= j < |r.records| ==> r.records[j].audioPath == audioPath && r.records[j].tag == UnknownLabel
  {
    match ParseLines(lines, parse)
    case AllParsed(segs) => Written(Records(audioPath, Merge(segs)))
    case FailedAt(k, before, e) => Aborted(Records(audioPath, Fold(before).flushed), k, e)
  }

  /** Reading stops at the first failing line: the lines before it parse as
      they did. */
  lemma {:induction false} ParseLinesStops(lines: seq<string>, parse: LineParser, k: nat, segs: seq<Seg>)
    requires k < |lines|
    requires ParseLines(lines[..k], parse) == AllParsed(segs)
    requires parse(lines[k]).Failure?
    ensures ParseLines(lines, parse) == FailedAt(k, segs, parse(lines[k]).error)
  {
    var r := ParseLines(lines, parse);
    forall i | 0 <= i < k
      ensures parse(lines[i]) == Success(segs[i])
    {
      assert lines[..k][i] == lines[i];
    }
    if r.FailedAt? {
      assert r.line == k;
      assert r.before == segs;
    }
  }

  /** A parse error keeps exactly the records of the lines before it, minus
      the span that was still open. */
  lemma AbortKeepsFlushed(audioPath: string, lines: seq<string>, parse: LineParser)
    requires ConvertFile(audioPath, lines, parse).Aborted?
    ensures var r := ConvertFile(audioPath, lines, parse);
            var before := ConvertFile(audioPath, lines[..r.line], parse);
            before.Written? && r.records == before.records[..|before.records| - 1]
  {
    var p := ParseLines(lines, parse);
    var k := p.line;
    var q := ParseLines(lines[..k], parse);
    forall i | 0 <= i < k
      ensures parse(lines[..k][i]) == Success(p.before[i])
    {
      assert lines[..k][i] == lines[i];
    }
    if q.FailedAt? {
      assert false;
    }
    assert q.segs == p.before;
    var spans := Merge(p.before);
    assert Records(audioPath, Fold(p.before).flushed) == Records(audioPath, spans)[..|spans| - 1];
  }

  lemma ParseLinesNext(lines: seq<string>, parse: LineParser, i: nat, segs: seq<Seg>, seg: Seg)
    requires i < |lines|
    requires ParseLines(lines[..i], parse) == AllParsed(segs)
    requires parse(lines[i]) == Success(seg)
    ensures ParseLines(lines[..i + 1], parse) == AllParsed(segs + [seg])
  {
    assert lines[..i + 1][..i] == lines[..i];
  }

  lemma RecordsSnoc(audioPath: string, spans: seq<Span>, sp: Span)
    ensures Records(audioPath, spans + [sp]) == Records(audioPath, spans) + [ToRecord(audioPath, sp)]
  {
  }

  /** The loop body of lines 50-61 as written: flush on a strict gap,
      start from the sentinel, or widen to the hull. */
  method Absorb(audioPath: string, ghost st: State, written: seq<Record>, timeTup: Span, seg: Seg)
    returns (written': seq<Record>, timeTup': Span)
    requires timeTup == st.cur && written == Records(audioPath, st.flushed)
    ensures timeTup' == Step(st, seg).cur
    ensures written' == Records(audioPath, Step(st, seg).flushed)
  {
    if timeTup.start >= 0 && seg.start > timeTup.end {
      RecordsSnoc(audioPath, st.flushed, st.cur);
      written' := written + [ToRecord(audioPath, timeTup)];
      timeTup' := Span(seg.start, seg.start + seg.dur);
    } else if timeTup.start == Sentinel.start {
      written' := written;
      timeTup' := Span(seg.start, seg.start + seg.dur);
    } else {
      written' := written;
      timeTup' := Span(Min(timeTup.start, seg.start), Max(timeTup.end, seg.start + seg.dur));
    }
  }

  /** The loop of lines 40-66 as written, emitting records as it goes. */
  method WriteFile(audioPath: string, lines: seq<string>, parse: LineParser) returns (r: FileOutcome)
    ensures r == ConvertFile(audioPath, lines, parse)
  {
    var timeTup := Sentinel;
    var written: seq<Record> := [];
    ghost var segs: seq<Seg> := [];
    var i := 0;
    while i < |lines|
      invariant 0 <= i <= |lines|
      invariant ParseLines(lines[..i], parse) == AllParsed(segs)
      invariant timeTup == Fold(segs).cur
      invariant written == Records(audioPath, Fold(segs).flushed)
    {
      var parsed := parse(lines[i]);
      if parsed.Failure? {
        ParseLinesStops(lines, parse, i, segs);
        return Aborted(written, i, parsed.error);
      }
      var seg := parsed.value;
      written, timeTup := Absorb(audioPath, Fold(segs), written, timeTup, seg);
      ParseLinesNext(lines, parse, i, segs, seg);
      FoldSnoc(segs, seg);
      segs := segs + [seg];
      i := i + 1;
    }
    assert lines[..|lines|] == lines;
    RecordsSnoc(audioPath, Fold(segs).flushed, Fold(segs).cur);
    written := written + [ToRecord(audioPath, timeTup)];
    r := Written(written);
  }

  /** One VAD file: the audio path its records name and its lines. */
  datatype AudioFile = AudioFile(audioPath: string, lines: seq<string>)

  datatype RunOutcome =
    | Completed(records: seq<Record>)
    | Failed(records: seq<Record>, file: nat, line: nat, error: ParseError)

  predicate FileCompletes(file: AudioFile, parse: LineParser)
  {
    ConvertFile(file.audioPath, file.lines, parse).Written?
  }

  /** What each file converts to, in order. */
  function Outcomes(files: seq<AudioFile>, parse: LineParser): (os: seq<FileOutcome>)
    ensures |os| == |files|
    ensures forall f :: 0 <= f < |files| ==> os[f] == ConvertFile(files[f].audioPath, files[f].lines, parse)
  {
    seq(|files|, f requires 0 <= f < |files| => ConvertFile(files[f].audioPath, files[f].lines, parse))
  }

  /** The records of the given outcomes, concatenated in order. */
  function Concat(os: seq<FileOutcome>): seq<Record>
    decreases |os|
  {
    if |os| == 0 then [] else os[0].records + Concat(os[1..])
  }

  /** The records of the given files, concatenated in order. */
  function AllRecords(files: seq<AudioFile>, parse: LineParser): seq<Record>
  {
    Concat(Outcomes(files, parse))
  }

  /** The outer loop of `write_manifest`, given what each file converts to:
      the first aborted file ends the run, after the earlier files' records
      and its own flushed ones are written. */
  function RunFiles(os: seq<FileOutcome>): (r: RunOutcome)
    ensures r.Completed? <==> forall f :: 0 <= f < |os| ==> os[f].Written?
    ensures r.Completed? ==> r.records == Concat(os)
    ensures r.Failed? ==> r.file < |os| && os[r.file].Aborted?
    ensures r.Failed? ==> os[r.file].line == r.line && os[r.file].error == r.error
    ensures r.Failed? ==> forall f :: 0 <= f < r.file ==> os[f].Written?
    ensures r.Failed? ==> r.records == Concat(os[..r.file + 1])
    decreases |os|
  {
    if |os| == 0 then Completed([])
    else if os[0].Aborted? then
      assert os[..1][1..] == [];
      Failed(os[0].records, 0, os[0].line, os[0].error)
    else
      var rest := RunFiles(os[1..]);
      assert forall f :: 1 <= f < |os| ==> os[1..][f - 1] == os[f];
      if rest.Completed? then Completed(os[0].records + rest.records)
      else
        var f := rest.file;
        assert os[..f + 2][1..] == os[1..][..f + 1];
        assert os[f + 1] == os[1..][f];
        Failed(os[0].records + rest.records, f + 1, rest.line, rest.error)
  }

  /** `write_manifest` over the VAD files, in the order given. The first file
      with a failing line ends the run. */
  function WriteManifest(files: seq<AudioFile>, parse: LineParser): (r: RunOutcome)
    ensures r.Completed? ==> forall f :: 0 <= f < |files| ==> FileCompletes(files[f], parse)
    ensures (forall f :: 0 <= f < |files| ==> FileCompletes(files[f], parse)) ==> r.Completed?
    ensures r.Completed? ==> r.records == AllRecords(files, parse)
    ensures r.Failed? ==> r.file < |files| && !FileCompletes(files[r.file], parse)
    ensures r.Failed? ==> forall f :: 0 <= f < r.file ==> FileCompletes(files[f], parse)
    ensures r.Failed? ==> ConvertFile(files[r.file].audioPath, files[r.file].lines, parse).line == r.line
    ensures r.Failed? ==> ConvertFile(files[r.file].audioPath, files[r.file].lines, parse).error == r.error
    ensures r.Failed? ==> r.records == AllRecords(files[..r.file + 1], parse)
  {
    var os := Outcomes(files, parse);
    var r := RunFiles(os);
    if r.Failed? then
      assert Outcomes(files[..r.file + 1], parse) == os[..r.file + 1];
      r
    else
      r
  }
}

=== FILE: merge_properties.dfy ===
/** What the merger promises about the spans it emits. */
module MergeProperties {
  import opened Segments
  import opened Merger

  /** An empty file still flushes the sentinel once. */
  lemma EmptyFile()
    ensures Merge([]) == [Sentinel]
  {
  }

  /** A single segment comes back as its own span, whatever its times. */
  lemma SingleSegment(s: Seg)
    ensures Merge([s]) == [SegSpan(s)]
  {
    FoldPrefix([s], 1);
    assert [s][..1] == [s];
  }

  /** Two segments: one span, their hull, when the second starts no later
      than the first ends (touching included); two spans otherwise. */
  lemma TwoSegments(a: Seg, b: Seg)
    requires WellFormed(a) && WellFormed(b)
    ensures b.start <= SegEnd(a) ==> Merge([a, b]) == [Hull(SegSpan(a), SegSpan(b))]
    ensures b.start > SegEnd(a) ==> Merge([a, b]) == [SegSpan(a), SegSpan(b)]
  {
    FoldPrefix([a, b], 2);
    FoldPrefix([a, b], 1);
    assert [a, b][..2] == [a, b];
  }

  /** One more segment after at least one: it opens a new span exactly when
      it starts strictly after the last span ends (lines 50-56); otherwise,
      touching included, the last span widens to the hull (line 61). */
  lemma MergeAppend(segs: seq<Seg>, s: Seg)
    requires AllWellFormed(segs) && |segs| > 0 && WellFormed(s)
    ensures var m := Merge(segs);
            s.start > m[|m| - 1].end ==> Merge(segs + [s]) == m + [SegSpan(s)]
    ensures var m := Merge(segs);
            s.start <= m[|m| - 1].end ==> Merge(segs + [s]) == m[..|m| - 1] + [Hull(m[|m| - 1], SegSpan(s))]
  {
    FoldSnoc(segs, s);
    FoldProper(segs);
  }

  /** With no negative time, every span after the first segment started at a
      real time and does not end before it starts. */
  lemma {:induction false} FoldProper(segs: seq<Seg>)
    requires AllWellFormed(segs)
    ensures |segs| > 0 ==> Proper(Fold(segs).cur)
    ensures forall j :: 0 <= j < |Fold(segs).flushed| ==> Proper(Fold(segs).flushed[j])
    decreases |segs|
  {
    if |segs| > 0 {
      FoldProper(segs[..|segs| - 1]);
    }
  }

  /** Every emitted record has a non-negative duration; for an empty file it
      is the sentinel's zero. */
  lemma NonNegativeDurations(segs: seq<Seg>)
    requires AllWellFormed(segs)
    ensures forall j :: 0 <= j < |Merge(segs)| ==> Merge(segs)[j].end - Merge(segs)[j].start >= 0
    ensures |segs| > 0 ==> forall j :: 0 <= j < |Merge(segs)| ==> Proper(Merge(segs)[j])
  {
    FoldProper(segs);
  }

  /** Spans only grow until they are flushed: the spans flushed after `k`
      segments stay in place, and the span current after `k` segments lies
      inside the span at the same position after `n` segments. */
  lemma {:induction false} Grows(segs: seq<Seg>, k: nat, n: nat)
    requires AllWellFormed(segs)
    requires 1 <= k <= n <= |segs|
    ensures |Fold(segs[..k]).flushed| <= |Fold(segs[..n]).flushed|
    ensures Fold(segs[..n]).flushed[..|Fold(segs[..k]).flushed|] == Fold(segs[..k]).flushed
    ensures Covers(Merge(segs[..n])[|Fold(segs[..k]).flushed|], Fold(segs[..k]).cur)
    decreases n - k
  {
    if n > k {
      Grows(segs, k, n - 1);
      FoldPrefix(segs, n);
      assert AllWellFormed(segs[..n - 1]);
      FoldProper(segs[..n - 1]);
      var st := Fold(segs[..n - 1]);
      var j := |Fold(segs[..k]).flushed|;
      if j < |st.flushed| {
        assert Merge(segs[..n])[j] == Merge(segs[..n - 1])[j];
      }
    }
  }

  /** The index of the emitted span that absorbs segment `i`. */
  function Owner(segs: seq<Seg>, i: nat): nat
    requires i < |segs|
  {
    |Fold(segs[..i + 1]).flushed|
  }

  /** Coverage: each segment lies inside the span that absorbed it, and
      later segments are absorbed by the same or a later span. */
  lemma Coverage(segs: seq<Seg>, i: nat, i': nat)
    requires AllWellFormed(segs)
    requires i <= i' < |segs|
    ensures Owner(segs, i) <= Owner(segs, i') < |Merge(segs)|
    ensures Covers(Merge(segs)[Owner(segs, i)], SegSpan(segs[i]))
  {
    var n := |segs|;
    assert segs[..n] == segs;
    var a, b := Fold(segs[..i + 1]), Fold(segs[..i' + 1]);
    assert |a.flushed| <= |b.flushed| by { Grows(segs, i + 1, i' + 1); }
    assert |b.flushed| <= |Fold(segs[..n]).flushed| by { Grows(segs, i' + 1, n); }
    assert Covers(Merge(segs[..n])[|a.flushed|], a.cur) by { Grows(segs, i + 1, n); }
    assert Covers(a.cur, SegSpan(segs[i])) by { FoldPrefix(segs, i + 1); }
  }

  /** Some segment starts where the span starts and some segment ends where
      it ends, among the first `n`. */
  predicate Attained(segs: seq<Seg>, n: nat, sp: Span)
    requires n <= |segs|
  {
    && (exists i :: 0 <= i < n && segs[i].start == sp.start)
    && (exists i :: 0 <= i < n && SegEnd(segs[i]) == sp.end)
  }

  lemma {:induction false} FoldAttained(segs: seq<Seg>, n: nat)
    requires 1 <= n <= |segs|
    ensures forall j :: 0 <= j < |Merge(segs[..n])| ==> Attained(segs, n, Merge(segs[..n])[j])
    decreases n
  {
    FoldPrefix(segs, n);
    if n > 1 {
      FoldAttained(segs, n - 1);
      var st := Fold(segs[..n - 1]);
      var next := Fold(segs[..n]);
      forall j | 0 <= j < |Merge(segs[..n])|
        ensures Attained(segs, n, Merge(segs[..n])[j])
      {
        if j < |st.flushed| {
          assert Merge(segs[..n])[j] == Merge(segs[..n - 1])[j];
          assert Attained(segs, n - 1, Merge(segs[..n - 1])[j]);
        } else if j == |st.flushed| && Gap(st, segs[n - 1]) {
          assert Merge(segs[..n])[j] == Merge(segs[..n - 1])[j];
          assert Attained(segs, n - 1, Merge(segs[..n - 1])[j]);
        } else {
          var s := segs[n - 1];
          assert Merge(segs[..n])[j] == next.cur;
          if Gap(st, s) || st.cur.start == Sentinel.start {
            assert next.cur == SegSpan(s);
            assert segs[n - 1].start == next.cur.start && SegEnd(segs[n - 1]) == next.cur.end;
          } else {
            assert Merge(segs[..n - 1])[|st.flushed|] == st.cur;
            assert Attained(segs, n - 1, st.cur);
            assert next.cur == Hull(st.cur, SegSpan(s));
            assert segs[n - 1].start == s.start && SegEnd(segs[n - 1]) == SegEnd(s);
          }
        }
      }
    }
  }

  /** No emitted span of a non-empty file reaches beyond its segments: each
      starts at some segment's start and ends at some segment's end. */
  lemma Tight(segs: seq<Seg>)
    requires |segs| >= 1
    ensures forall j :: 0 <= j < |Merge(segs)| ==> Attained(segs, |segs|, Merge(segs)[j])
  {
    FoldAttained(segs, |segs|);
    assert segs[..|segs|] == segs;
  }

  /** The number of segments that triggered a flush on line 50. */
  function GapCount(segs: seq<Seg>): nat
    decreases |segs|
  {
    if |segs| == 0 then 0
    else
      var prefix := segs[..|segs| - 1];
      GapCount(prefix) + (if Gap(Fold(prefix), segs[|segs| - 1]) then 1 else 0)
  }

  /** Output count: one record per gap flush plus the final flush. */
  lemma {:induction false} CountIsGapsPlusOne(segs: seq<Seg>)
    ensures |Merge(segs)| == 1 + GapCount(segs)
    decreases |segs|
  {
    if |segs| > 0 {
      CountIsGapsPlusOne(segs[..|segs| - 1]);
    }
  }

  /** Segments with the same times, whatever their activity labels. */
  predicate SameTimes(a: seq<Seg>, b: seq<Seg>)
  {
    |a| == |b| && forall i :: 0 <= i < |a| ==> a[i].start == b[i].start && a[i].dur == b[i].dur
  }

  /** The activity label never influences the merge. */
  lemma {:induction false} ActivityIgnored(a: seq<Seg>, b: seq<Seg>)
    requires SameTimes(a, b)
    ensures Merge(a) == Merge(b)
    ensures Fold(a) == Fold(b)
    decreases |a|
  {
    if |a| > 0 {
      ActivityIgnored(a[..|a| - 1], b[..|b| - 1]);
    }
  }

  /** Instant `t` lies in the span. */
  predicate Within(sp: Span, t: real)
  {
    sp.start as real <= t <= sp.end as real
  }

  ghost predicate HullIsUnion(a: Span, b: Span)
  {
    forall t: real :: Within(Hull(a, b), t) <==> Within(a, t) || Within(b, t)
  }

  /** The hull the merger extends to, on lines 58-61, is the union of the two
      spans as sets of instants exactly when they touch or overlap. */
  lemma ExtendIsUnion(cur: Span, s: Seg)
    requires Proper(cur) && WellFormed(s)
    requires cur.start <= s.start
    ensures HullIsUnion(cur, SegSpan(s)) <==> s.start <= cur.end
  {
    if s.start > cur.end {
      var mid := (cur.end as real + s.start as real) / 2.0;
      assert Within(Hull(cur, SegSpan(s)), mid);
      assert !Within(cur, mid) && !Within(SegSpan(s), mid);
    }
  }

  /** Segments ordered by start time, as a VAD tool writes them. */
  predicate Sorted(segs: seq<Seg>)
  {
    forall i, j :: 0 <= i < j < |segs| ==> segs[i].start <= segs[j].start
  }

  /** Consecutive spans are separated by a strict gap. */
  predicate Separated(spans: seq<Span>)
  {
    forall j :: 0 <= j < |spans| - 1 ==> spans[j].end < spans[j + 1].start
  }

  /** One step on a segment that starts no earlier than the running span:
      the span keeps its start or moves to the segment, and ends at the
      greater end. */
  lemma SortedStepEnd(st: State, s: Seg)
    requires Proper(st.cur) && WellFormed(s) && st.cur.start <= s.start
    ensures Step(st, s).cur.start <= s.start
    ensures Step(st, s).cur.end == Max(st.cur.end, SegEnd(s))
  {
  }

  /** One step on a segment that starts no earlier than the running span
      keeps the spans separated. */
  lemma SortedStep(st: State, s: Seg)
    requires Proper(st.cur) && WellFormed(s) && st.cur.start <= s.start
    requires Separated(st.flushed + [st.cur])
    ensures Step(st, s).cur.end == Max(st.cur.end, SegEnd(s))
    ensures Separated(Step(st, s).flushed + [Step(st, s).cur])
  {
    SortedStepEnd(st, s);
    var before := st.flushed + [st.cur];
    var next := Step(st, s);
    var after := next.flushed + [next.cur];
    if Gap(st, s) {
      assert after == before + [SegSpan(s)];
    } else {
      assert after[..|st.flushed|] == before[..|st.flushed|];
      forall j | 0 <= j < |after| - 1
        ensures after[j].end < after[j + 1].start
      {
        assert after[j] == before[j];
        assert after[j + 1].start == before[j + 1].start;
      }
    }
  }

  /** On sorted input the running span starts no later than the latest
      segment and ends at the greatest end seen so far. */
  lemma {:induction false} SortedRunning(segs: seq<Seg>, n: nat)
    requires AllWellFormed(segs) && Sorted(segs)
    requires 1 <= n <= |segs|
    ensures Fold(segs[..n]).cur.start <= segs[n - 1].start
    ensures forall k :: 0 <= k < n ==> SegEnd(segs[k]) <= Fold(segs[..n]).cur.end
    ensures exists k :: 0 <= k < n && SegEnd(segs[k]) == Fold(segs[..n]).cur.end
    decreases n
  {
    FoldPrefix(segs, n);
    var s := segs[n - 1];
    assert WellFormed(s);
    if n > 1 {
      SortedRunning(segs, n - 1);
      var st := Fold(segs[..n - 1]);
      assert Proper(st.cur) by {
        assert AllWellFormed(segs[..n - 1]);
        FoldProper(segs[..n - 1]);
      }
      assert segs[n - 2].start <= s.start;
      SortedStepEnd(st, s);
      var k :| 0 <= k < n - 1 && SegEnd(segs[k]) == st.cur.end;
      if st.cur.end < SegEnd(s) {
        assert SegEnd(segs[n - 1]) == Fold(segs[..n]).cur.end;
      } else {
        assert SegEnd(segs[k]) == Fold(segs[..n]).cur.end;
      }
    } else {
      assert SegEnd(segs[0]) == Fold(segs[..n]).cur.end;
    }
  }

  /** On sorted input the spans so far are separated by strict gaps. */
  lemma {:induction false} SortedFold(segs: seq<Seg>, n: nat)
    requires AllWellFormed(segs) && Sorted(segs)
    requires 1 <= n <= |segs|
    ensures Separated(Merge(segs[..n]))
    decreases n
  {
    SortedRunning(segs, n);
    FoldPrefix(segs, n);
    if n > 1 {
      SortedFold(segs, n - 1);
      var st := Fold(segs[..n - 1]);
      assert Proper(st.cur) by {
        assert AllWellFormed(segs[..n - 1]);
        FoldProper(segs[..n - 1]);
      }
      assert segs[n - 2].start <= segs[n - 1].start;
      assert WellFormed(segs[n - 1]);
      SortedStep(st, segs[n - 1]);
    }
  }

  /** Sorted input gives spans in time order with a strict gap between
      neighbours. */
  lemma SortedOutput(segs: seq<Seg>)
    requires AllWellFormed(segs) && Sorted(segs)
    ensures Separated(Merge(segs))
    ensures forall j, j' :: 0 <= j < j' < |Merge(segs)| ==> Merge(segs)[j].end < Merge(segs)[j'].start
  {
    if |segs| > 0 {
      SortedFold(segs, |segs|);
      assert segs[..|segs|] == segs;
      NonNegativeDurations(segs);
      var m := Merge(segs);
      forall j, j' | 0 <= j < j' < |m|
        ensures m[j].end < m[j'].start
      {
        SeparatedOrdered(m, j, j');
      }
    }
  }

  lemma {:induction false} SeparatedOrdered(m: seq<Span>, j: nat, j': nat)
    requires Separated(m)
    requires forall k :: 0 <= k < |m| ==> Proper(m[k])
    requires j < j' < |m|
    ensures m[j].end < m[j'].start
    decreases j' - j
  {
    if j' > j + 1 {
      SeparatedOrdered(m, j, j' - 1);
    }
  }

  /** Segment `i` starts after every earlier segment has ended. */
  predicate StartsAfterAll(segs: seq<Seg>, i: nat)
    requires i < |segs|
  {
    forall k :: 0 <= k < i ==> SegEnd(segs[k]) < segs[i].start
  }

  /** On sorted input the flush test of line 50 fires exactly at the
      segments that start after every earlier segment has ended. */
  lemma SortedGapIff(segs: seq<Seg>, i: nat)
    requires AllWellFormed(segs) && Sorted(segs)
    requires 1 <= i < |segs|
    ensures Gap(Fold(segs[..i]), segs[i]) <==> StartsAfterAll(segs, i)
  {
    SortedRunning(segs, i);
    assert AllWellFormed(segs[..i]);
    FoldProper(segs[..i]);
  }

  /** Segments, after the first, that start after all earlier ones end. */
  function FreshStarts(segs: seq<Seg>): nat
    decreases |segs|
  {
    if |segs| <= 1 then 0
    else FreshStarts(segs[..|segs| - 1]) + (if StartsAfterAll(segs, |segs| - 1) then 1 else 0)
  }

  /** On sorted input the record count is one more than the number of
      segments that start after everything before them has ended. */
  lemma {:induction false} SortedCount(segs: seq<Seg>)
    requires AllWellFormed(segs) && Sorted(segs)
    ensures |Merge(segs)| == 1 + FreshStarts(segs)
    decreases |segs|
  {
    CountIsGapsPlusOne(segs);
    if |segs| > 0 {
      var prefix := segs[..|segs| - 1];
      assert AllWellFormed(prefix) && Sorted(prefix);
      SortedCount(prefix);
      CountIsGapsPlusOne(prefix);
      if |segs| > 1 {
        SortedGapIff(segs, |segs| - 1);
      }
    }
  }

  /** Spans turned back into segments (with the manifest's label). */
  function AsSegs(spans: seq<Span>): (segs: seq<Seg>)
    ensures |segs| == |spans|
    ensures forall j :: 0 <= j < |spans| ==> SegSpan(segs[j]) == spans[j]
  {
    seq(|spans|, j requires 0 <= j < |spans| => Seg(spans[j].start, spans[j].end - spans[j].start, "UNK"))
  }

  lemma {:induction false} SeparatedFold(spans: seq<Span>, n: nat)
    requires forall j :: 0 <= j < |spans| ==> Proper(spans[j])
    requires Separated(spans)
    requires 1 <= n <= |spans|
    ensures Fold(AsSegs(spans)[..n]) == State(spans[..n - 1], spans[n - 1])
    decreases n
  {
    FoldPrefix(AsSegs(spans), n);
    if n > 1 {
      SeparatedFold(spans, n - 1);
      assert spans[..n - 2] + [spans[n - 2]] == spans[..n - 1];
    }
  }

  /** Strictly separated spans are a fixed point of the merger. */
  lemma SeparatedIsFixpoint(spans: seq<Span>)
    requires |spans| >= 1
    requires forall j :: 0 <= j < |spans| ==> Proper(spans[j])
    requires Separated(spans)
    ensures Merge(AsSegs(spans)) == spans
  {
    SeparatedFold(spans, |spans|);
    assert AsSegs(spans)[..|spans|] == AsSegs(spans);
  }

  /** Idempotence: merging again what a sorted file produced gives the same
      spans back. An empty file's sentinel span, fed back as one segment,
      comes out as itself. */
  lemma MergeIdempotent(segs: seq<Seg>)
    requires AllWellFormed(segs) && Sorted(segs)
    ensures Merge(AsSegs(Merge(segs))) == Merge(segs)
  {
    if |segs| == 0 {
      EmptyFile();
      var again := AsSegs([Sentinel]);
      assert again == [again[0]];
      SingleSegment(again[0]);
    } else {
      SortedOutput(segs);
      NonNegativeDurations(segs);
      SeparatedIsFixpoint(Merge(segs));
    }
  }

  /** Without sorted input the output need not be ordered, and the hull can
      cover silence no segment covers (here 1000-5000 ms). */
  lemma UnsortedCounterexample()
    ensures Merge([Seg(5000, 1000, "speech"), Seg(0, 1000, "speech")]) == [Span(0, 6000)]
    ensures Merge([Seg(5000, 1000, "speech"), Seg(10000, 1000, "speech"), Seg(0, 1000, "speech")])
            == [Span(5000, 6000), Span(0, 11000)]
  {
    var a := [Seg(5000, 1000, "speech"), Seg(0, 1000, "speech")];
    FoldPrefix(a, 2);
    FoldPrefix(a, 1);
    assert a[..2] == a;
    var b := [Seg(5000, 1000, "speech"), Seg(10000, 1000, "speech"), Seg(0, 1000, "speech")];
    FoldPrefix(b, 3);
    FoldPrefix(b, 2);
    FoldPrefix(b, 1);
    assert b[..3] == b;
  }

  /** The gap test also needs the current span to start at or after 0, so a
      span with any other negative start than the sentinel's -1 s is never
      flushed: every later segment widens it, however far away it starts. */
  lemma NegativeStartWidens()
    ensures Merge([Seg(-1, 1000, "speech"), Seg(5000, 1000, "speech")]) == [Span(-1, 6000)]
  {
    var a := [Seg(-1, 1000, "speech"), Seg(5000, 1000, "speech")];
    FoldPrefix(a, 2);
    FoldPrefix(a, 1);
    assert a[..2] == a;
  }

  /** A segment starting at -1 s is taken for the sentinel: the next segment
      replaces it instead of flushing it, so its time is lost. */
  lemma SentinelCollision()
    ensures Merge([Seg(-1000, 3000, "speech"), Seg(5000, 1000, "speech")]) == [Span(5000, 6000)]
  {
    var a := [Seg(-1000, 3000, "speech"), Seg(5000, 1000, "speech")];
    FoldPrefix(a, 2);
    FoldPrefix(a, 1);
    assert a[..2] == a;
  }
}

=== FILE: merger.dfy ===
/** The interval merger of `write_manifest` (lines 40 and 50-66): one left
    fold over a file's segments with a single "current span", flushing it on a
    strict gap and once more after the last segment. Times are milliseconds. */
module Merger {
  import opened Segments

  /** A time span `[start, end]` in milliseconds. */
  datatype Span = Span(start: int, end: int)

  /** The fold's state: the spans flushed so far, in order, and the current
      span (`time_tup`). */
  datatype State = State(flushed: seq<Span>, cur: Span)

  /** `time_tup = (-1, -1)`: no segment seen yet. The source's times are
      seconds, so the sentinel is -1 s, that is -1000 ms. */
  const Sentinel := Span(-1000, -1000)

  const Initial := State([], Sentinel)

  function Min(a: int, b: int): int { if a <= b then a else b }

  function Max(a: int, b: int): int { if a >= b then a else b }

  function SegEnd(s: Seg): int { s.start + s.dur }

  /** The span a single segment occupies. */
  function SegSpan(s: Seg): Span { Span(s.start, SegEnd(s)) }

  /** The smallest span holding both `a` and `b`. */
  function Hull(a: Span, b: Span): Span
  {
    Span(Min(a.start, b.start), Max(a.end, b.end))
  }

  predicate Covers(outer: Span, inner: Span)
  {
    outer.start <= inner.start && inner.end <= outer.end
  }

  /** A span that started at a real time and does not end before it starts. */
  predicate Proper(sp: Span)
  {
    0 <= sp.start <= sp.end
  }

  /** The inputs the source is written for: no negative time. */
  predicate WellFormed(s: Seg)
  {
    s.start >= 0 && s.dur >= 0
  }

  predicate AllWellFormed(segs: seq<Seg>)
  {
    forall i :: 0 <= i < |segs| ==> WellFormed(segs[i])
  }

  /** The flush test of line 50: a current span exists and the segment
      starts strictly after it ends. */
  predicate Gap(st: State, s: Seg)
  {
    st.cur.start >= 0 && s.start > st.cur.end
  }

  /** One iteration of the loop body, lines 50-61. */
  function Step(st: State, s: Seg): (next: State)
    ensures |next.flushed| == |st.flushed| + (if Gap(st, s) then 1 else 0)
    ensures next.flushed[..|st.flushed|] == st.flushed
    ensures Gap(st, s) ==> next.flushed[|st.flushed|] == st.cur
    ensures Covers(next.cur, SegSpan(s))
  {
    if Gap(st, s) then State(st.flushed + [st.cur], SegSpan(s))
    else if st.cur.start == Sentinel.start then State(st.flushed, SegSpan(s))
    else State(st.flushed, Hull(st.cur, SegSpan(s)))
  }

  /** The state after the loop has consumed `segs`, in order. */
  function Fold(segs: seq<Seg>): State
    decreases |segs|
  {
    if |segs| == 0 then Initial
    else Step(Fold(segs[..|segs| - 1]), segs[|segs| - 1])
  }

  /** Every span the file produces: those flushed on a gap and then the
      final, unconditional flush of lines 62-66. */
  function Merge(segs: seq<Seg>): (spans: seq<Span>)
    ensures |spans| >= 1
  {
    Fold(segs).flushed + [Fold(segs).cur]
  }

  /** Unfolds `Fold` on a prefix of a fixed sequence. */
  lemma FoldPrefix(segs: seq<Seg>, n: nat)
    requires 1 <= n <= |segs|
    ensures Fold(segs[..n]) == Step(Fold(segs[..n - 1]), segs[n - 1])
  {
    assert segs[..n][..n - 1] == segs[..n - 1];
  }

  /** Unfolds `Fold` on a sequence extended by one segment. */
  lemma FoldSnoc(segs: seq<Seg>, s: Seg)
    ensures Fold(segs + [s]) == Step(Fold(segs), s)
  {
    assert (segs + [s])[..|segs|] == segs;
  }
}

=== FILE: scenarios.dfy ===
/** Worked inputs for the converter, end to end from text lines. */
module Scenarios {
  import opened Wrappers
  import opened Segments
  import opened Merger
  import opened Manifest
  import Tokens
  import Decimal
  import MergeProperties

  const Reader := LineReader(Decimal.ParseMs)

  /** The fields of `SPEAKER file 1 2.000 1.500 <NA> <NA> speech <NA> <NA>`. */
  const LongFields := ["SPEAKER", "file", "1", "2.000", "1.500", "<NA>", "<NA>", "speech", "<NA>", "<NA>"]

  lemma LongFieldsAreTokens()
    ensures forall i :: 0 <= i < |LongFields| ==> Tokens.IsToken(LongFields[i])
  {
    assert Tokens.IsToken("SPEAKER");
    assert Tokens.IsToken("file");
    assert Tokens.IsToken("1");
    assert Tokens.IsToken("2.000");
    assert Tokens.IsToken("1.500");
    assert Tokens.IsToken("<NA>");
    assert Tokens.IsToken("speech");
  }

  /** The RTTM-like line, written with single spaces: start and duration are
      the 4th and 5th fields and the activity the 8th. */
  lemma LongLine()
    ensures ParseLine(Tokens.Join(LongFields), Decimal.ParseMs) == Success(Seg(2000, 1500, "speech"))
  {
    LongFieldsAreTokens();
    Tokens.SplitJoin(LongFields);
    Tokens.StripIrrelevant(Tokens.Join(LongFields));
    ReadsTwo();
    ReadsOneAndHalf();
    assert LongFields[3] == "2.000" && LongFields[4] == "1.500" && LongFields[7] == "speech";
  }

  lemma ReadsTwo()
    ensures Decimal.ParseMs("2.000") == Some(2000)
  {
    Decimal.ReadDecimal("2", "000");
    assert "2" + "." + "000" == "2.000";
    assert "000"[..2] == "00" && "00"[..1] == "0";
  }

  lemma ReadsOneAndHalf()
    ensures Decimal.ParseMs("1.500") == Some(1500)
  {
    Decimal.ReadDecimal("1", "500");
    assert "1" + "." + "500" == "1.500";
    assert "500"[..2] == "50" && "50"[..1] == "5";
  }

  /** The fields of `5.123456 2.0 speech`. */
  const ShortFields := ["5.123456", "2.0", "speech"]

  /** A short line with more than three decimals is rounded to milliseconds. */
  lemma ShortLineRounds()
    ensures ParseLine(Tokens.Join(ShortFields), Decimal.ParseMs) == Success(Seg(5123, 2000, "speech"))
  {
    assert Tokens.IsToken("5.123456") && Tokens.IsToken("2.0") && Tokens.IsToken("speech");
    Tokens.SplitJoin(ShortFields);
    Tokens.StripIrrelevant(Tokens.Join(ShortFields));
    ReadsRounded();
    ReadsTwoShort();
  }

  /** More than three decimals: rounded to the millisecond. */
  lemma ReadsRounded()
    ensures Decimal.ParseMs("5.123456") == Some(5123)
  {
    Decimal.ReadDecimal("5", "123456");
    assert "5" + "." + "123456" == "5.123456";
    assert "123456"[..3] == "123" && "123"[..2] == "12" && "12"[..1] == "1";
  }

  lemma ReadsTwoShort()
    ensures Decimal.ParseMs("2.0") == Some(2000)
  {
    Decimal.ReadDecimal("2", "0");
  }

  /** Overlapping segments give one record spanning both. */
  lemma Overlapping()
    ensures Records("a.wav", Merge([Seg(0, 1000, "speech"), Seg(500, 1000, "speech")]))
            == [Record("a.wav", 0, 1500, "UNK")]
  {
    var segs := [Seg(0, 1000, "speech"), Seg(500, 1000, "speech")];
    assert Merge(segs) == [Span(0, 1500)] by {
      MergeProperties.TwoSegments(segs[0], segs[1]);
      assert Hull(SegSpan(segs[0]), SegSpan(segs[1])) == Span(0, 1500);
    }
  }

  /** A strict gap gives two records, in order. */
  lemma Separate()
    ensures Records("a.wav", Merge([Seg(0, 1000, "speech"), Seg(3000, 1000, "speech")]))
            == [Record("a.wav", 0, 1000, "UNK"), Record("a.wav", 3000, 1000, "UNK")]
  {
    var segs := [Seg(0, 1000, "speech"), Seg(3000, 1000, "speech")];
    FoldPrefix(segs, 2);
    FoldPrefix(segs, 1);
    assert segs[..2] == segs;
  }

  /** An empty VAD file still writes one record: the sentinel, offset -1 s
      and duration 0. */
  lemma EmptyFileRecord(audioPath: string, parse: LineParser)
    ensures ConvertFile(audioPath, [], parse) == Written([Record(audioPath, -1000, 0, "UNK")])
  {
  }

  /** A line with five fields takes the long layout and has no 8th field. */
  lemma FiveFieldsFail()
    ensures ParseFields(["a", "b", "c", "1.0", "2.0"], Decimal.ParseMs) == Failure(MissingField(7))
  {
    Decimal.ReadDecimal("1", "0");
    ReadsTwoShort();
  }

  const OneLine := Tokens.Join(ShortFields)

  /** A file of one readable line yields that segment's span as its record. */
  lemma SingleLineFile(audioPath: string, line: string, parse: LineParser, seg: Seg)
    requires parse(line) == Success(seg)
    ensures ConvertFile(audioPath, [line], parse) == Written([ToRecord(audioPath, SegSpan(seg))])
  {
    assert ParseLines([line], parse) == AllParsed([seg]) by {
      assert [line][..0] == [];
    }
    assert Merge([seg]) == [SegSpan(seg)] by {
      MergeProperties.SingleSegment(seg);
    }
  }

  /** A one-line file: the record carries the rounded offset and the
      duration, labelled "UNK". */
  lemma OneLineFile()
    ensures ConvertFile("a.wav", [OneLine], Reader) == Written([Record("a.wav", 5123, 2000, "UNK")])
  {
    assert Reader(OneLine) == Success(Seg(5123, 2000, "speech")) by {
      ShortLineRounds();
    }
    SingleLineFile("a.wav", OneLine, Reader, Seg(5123, 2000, "speech"));
  }
}

=== FILE: segments.dfy ===
/** The per-line parser of `write_manifest`: a line's fields become a raw
    segment `(start, dur, activity)`, with times in integer milliseconds. */
module Segments {
  import opened Wrappers
  import Tokens

  /** One raw VAD segment; `start` and `dur` are milliseconds. */
  datatype Seg = Seg(start: int, dur: int, activity: string)

  /** Where the three fields sit in a line. */
  datatype Layout = Layout(startAt: nat, durAt: nat, activityAt: nat)

  /** `start duration label` */
  const ShortLayout := Layout(0, 1, 2)

  /** The RTTM-like form: start and duration are the 4th and 5th fields,
      the activity label the 8th. */
  const LongLayout := Layout(3, 4, 7)

  /** Why a line could not be read: a field index past the end of the line
      (Python's `IndexError`) or a time field `float` rejects (`ValueError`). */
  datatype ParseError = MissingField(index: nat) | NotANumber(token: string)

  /** The layout is chosen by the field count alone. */
  function LayoutOf(fields: seq<string>): Layout
  {
    if |fields| > 3 then LongLayout else ShortLayout
  }

  function Field(fields: seq<string>, i: nat): (r: Result<string, ParseError>)
  {
    if i < |fields| then Success(fields[i]) else Failure(MissingField(i))
  }

  function Number(token: string, num: string -> Option<int>): Result<int, ParseError>
  {
    match num(token)
    case Some(v) => Success(v)
    case None => Failure(NotANumber(token))
  }

  /** Lines 43-48. The fields are read in Python's left-to-right order (start
      field, its conversion, duration field, its conversion, label field), so
      the first failing step decides the error. `num` is the time reader:
      `float` followed by three-decimal rounding, in milliseconds. */
  function ParseFields(fields: seq<string>, num: string -> Option<int>): (r: Result<Seg, ParseError>)
    ensures var s := if |fields| > 3 then 3 else 0;
            r.Success? <==> (|fields| == 3 || |fields| >= 8) && num(fields[s]).Some? && num(fields[s + 1]).Some?
    ensures var s := if |fields| > 3 then 3 else 0;
            r.Success? ==> r.value == Seg(num(fields[s]).value, num(fields[s + 1]).value, fields[if |fields| > 3 then 7 else 2])
    ensures r.Failure? && r.error.MissingField? ==> r.error.index >= |fields| && !(|fields| == 3 || |fields| >= 8)
    ensures r.Failure? && r.error.NotANumber? ==> r.error.token in fields && num(r.error.token).None?
  {
    var layout := LayoutOf(fields);
    var startField :- Field(fields, layout.startAt);
    var start :- Number(startField, num);
    var durField :- Field(fields, layout.durAt);
    var dur :- Number(durField, num);
    var activity :- Field(fields, layout.activityAt);
    Success(Seg(start, dur, activity))
  }

  /** A whole line: `line.strip().split()` and then the fields. */
  function ParseLine(line: string, num: string -> Option<int>): Result<Seg, ParseError>
  {
    ParseFields(Tokens.Fields(line), num)
  }
}

=== FILE: tokens.dfy ===
/** Splitting a line of a VAD file into fields, as `line.strip().split()` does:
    runs of whitespace separate fields, and leading or trailing whitespace
    produces no empty field. */
module Tokens {

  /** The characters Python's argument-less `str.split()` and `str.strip()`
      treat as whitespace. */
  predicate IsSpace(c: char) {
    || ('\t' <= c <= '\r')
    || ('\U{1C}' <= c <= ' ')
    || c == '\U{85}' || c == '\U{A0}' || c == '\U{1680}'
    || ('\U{2000}' <= c <= '\U{200A}')
    || c == '\U{2028}' || c == '\U{2029}' || c == '\U{202F}'
    || c == '\U{205F}' || c == '\U{3000}'
  }

  predicate NotSpace(c: char) {
    !IsSpace(c)
  }

  /** A field: non-empty and free of whitespace. */
  predicate IsToken(t: string) {
    |t| > 0 && forall i :: 0 <= i < |t| ==> NotSpace(t[i])
  }

  /** Length of the longest prefix of `s` whose characters all satisfy `p`. */
  function Run(s: string, p: char -> bool): (n: nat)
    ensures n <= |s|
    ensures forall i :: 0 <= i < n ==> p(s[i])
    ensures n < |s| ==> !p(s[n])
  {
    if |s| == 0 || !p(s[0]) then 0 else 1 + Run(s[1..], p)
  }

  /** The three facts `Run` ensures determine it. */
  lemma {:induction false} RunUnique(s: string, p: char -> bool, n: nat)
    requires n <= |s|
    requires forall i :: 0 <= i < n ==> p(s[i])
    requires n < |s| ==> !p(s[n])
    ensures Run(s, p) == n
  {
    if n > 0 {
      RunUnique(s[1..], p, n - 1);
    }
  }

  function Split(s: string): (r: seq<string>)
    ensures forall i :: 0 <= i < |r| ==> IsToken(r[i])
    decreases |s|
  {
    if |s| == 0 then []
    else if IsSpace(s[0]) then Split(s[1..])
    else
      var n := Run(s, NotSpace);
      [s[..n]] + Split(s[n..])
  }

  /** The fields written out with one space between neighbours. */
  function Join(ts: seq<string>): string
  {
    if |ts| == 0 then ""
    else if |ts| == 1 then ts[0]
    else ts[0] + " " + Join(ts[1..])
  }

  function TrimStart(s: string): (r: string)
    ensures |r| <= |s| && r == s[|s| - |r|..]
    ensures forall i :: 0 <= i < |s| - |r| ==> IsSpace(s[i])
    ensures |r| > 0 ==> NotSpace(r[0])
  {
    if |s| > 0 && IsSpace(s[0]) then TrimStart(s[1..]) else s
  }

  function TrimEnd(s: string): (r: string)
    ensures |r| <= |s| && r == s[..|r|]
    ensures forall i :: |r| <= i < |s| ==> IsSpace(s[i])
    ensures |r| > 0 ==> NotSpace(r[|r| - 1])
  {
    if |s| > 0 && IsSpace(s[|s| - 1]) then TrimEnd(s[..|s| - 1]) else s
  }

  /** `str.strip()`: whitespace removed from both ends. */
  function Strip(s: string): string
  {
    TrimEnd(TrimStart(s))
  }

  /** Python's `line.strip().split()`. */
  function Fields(line: string): seq<string>
  {
    Split(Strip(line))
  }

  /** Splitting a single-space join of fields gives the fields back. */
  lemma {:induction false} SplitJoin(ts: seq<string>)
    requires forall i :: 0 <= i < |ts| ==> IsToken(ts[i])
    ensures Split(Join(ts)) == ts
  {
    if |ts| == 0 {
    } else {
      var t := ts[0];
      var s := Join(ts);
      var rest := if |ts| == 1 then "" else " " + Join(ts[1..]);
      assert s == t + rest;
      RunUnique(s, NotSpace, |t|);
      assert s[..|t|] == t;
      assert s[|t|..] == rest;
      SplitJoin(ts[1..]);
      if |ts| == 1 {
        assert Split(s) == [t];
      } else {
        assert rest[1..] == Join(ts[1..]);
        assert Split(rest) == Split(Join(ts[1..]));
        assert Split(s) == [t] + ts[1..];
      }
    }
  }

  /** A run of whitespace, possibly empty. */
  predicate AllSpace(w: string) {
    forall i :: 0 <= i < |w| ==> IsSpace(w[i])
  }

  /** The fields `ts` with the whitespace runs `ws` around and between them:
      `ws[0] + ts[0] + ws[1] + ... + ts[n-1] + ws[n]`. */
  function Interleave(ws: seq<string>, ts: seq<string>): string
    requires |ws| == |ts| + 1
    decreases |ts|
  {
    if |ts| == 0 then ws[0] else ws[0] + ts[0] + Interleave(ws[1..], ts[1..])
  }

  /** Whitespace in front of a line never produces a field. */
  lemma {:induction false} SplitSkipsSpace(w: string, s: string)
    requires AllSpace(w)
    ensures Split(w + s) == Split(s)
    decreases |w|
  {
    if |w| > 0 {
      assert (w + s)[1..] == w[1..] + s;
      SplitSkipsSpace(w[1..], s);
    } else {
      assert w + s == s;
    }
  }

  /** A field followed by whitespace or the end of the line is split off whole. */
  lemma SplitTakesToken(t: string, s: string)
    requires IsToken(t)
    requires |s| == 0 || IsSpace(s[0])
    ensures Split(t + s) == [t] + Split(s)
  {
    var u := t + s;
    RunUnique(u, NotSpace, |t|);
    assert u[..|t|] == t;
    assert u[|t|..] == s;
  }

  /** Splitting fields laid out with any whitespace before, between (at least
      one character) and after them gives the fields back. */
  lemma {:induction false} SplitInterleave(ws: seq<string>, ts: seq<string>)
    requires |ws| == |ts| + 1
    requires forall i :: 0 <= i < |ws| ==> AllSpace(ws[i])
    requires forall i :: 0 < i < |ts| ==> |ws[i]| > 0
    requires forall i :: 0 <= i < |ts| ==> IsToken(ts[i])
    ensures Split(Interleave(ws, ts)) == ts
    decreases |ts|
  {
    if |ts| == 0 {
      SplitSkipsSpace(ws[0], "");
      assert ws[0] + "" == ws[0];
    } else {
      var rest := Interleave(ws[1..], ts[1..]);
      assert AllSpace(ws[0]);
      assert IsToken(ts[0]);
      assert forall i :: 0 < i < |ts[1..]| ==> ws[1..][i] == ws[i + 1];
      SplitInterleave(ws[1..], ts[1..]);
      if |rest| > 0 {
        if |ts| == 1 {
          assert rest == ws[1];
        } else {
          assert |ws[1]| > 0;
          assert rest == ws[1] + ts[1] + Interleave(ws[2..], ts[2..]) by {
            assert ws[1..][1..] == ws[2..];
            assert ts[1..][1..] == ts[2..];
          }
        }
        assert rest[0] == ws[1][0];
      }
      SplitTakesToken(ts[0], rest);
      assert Interleave(ws, ts) == ws[0] + (ts[0] + rest);
      SplitSkipsSpace(ws[0], ts[0] + rest);
    }
  }

  /** Leading whitespace never changes the fields. */
  lemma {:induction false} SplitTrimStart(s: string)
    ensures Split(TrimStart(s)) == Split(s)
    decreases |s|
  {
    if |s| > 0 && IsSpace(s[0]) {
      SplitTrimStart(s[1..]);
    }
  }

  /** A trailing whitespace character never changes the fields. */
  lemma {:induction false} SplitDropLastSpace(s: string)
    requires |s| > 0 && IsSpace(s[|s| - 1])
    ensures Split(s) == Split(s[..|s| - 1])
    decreases |s|
  {
    var t := s[..|s| - 1];
    if |t| == 0 {
    } else if IsSpace(s[0]) {
      SplitDropLastSpace(s[1..]);
      assert s[1..][..|s| - 2] == t[1..];
      assert Split(t) == Split(t[1..]);
    } else {
      var n := Run(s, NotSpace);
      assert n <= |t|;
      forall i | 0 <= i < n
        ensures NotSpace(t[i])
      {
        assert t[i] == s[i];
      }
      assert n < |t| ==> t[n] == s[n];
      RunUnique(t, NotSpace, n);
      assert t[..n] == s[..n];
      assert Split(s) == [s[..n]] + Split(s[n..]);
      assert Split(t) == [t[..n]] + Split(t[n..]);
      SplitDropLastSpace(s[n..]);
      assert s[n..][..|s| - n - 1] == t[n..];
    }
  }

  /** Trailing whitespace never changes the fields. */
  lemma {:induction false} SplitTrimEnd(s: string)
    ensures Split(TrimEnd(s)) == Split(s)
    decreases |s|
  {
    if |s| > 0 && IsSpace(s[|s| - 1]) {
      SplitDropLastSpace(s);
      SplitTrimEnd(s[..|s| - 1]);
    }
  }

  /** The `strip()` before `split()` on line 42 makes no difference. */
  lemma StripIrrelevant(line: string)
    ensures Fields(line) == Split(line)
  {
    SplitTrimEnd(TrimStart(line));
    SplitTrimStart(line);
  }
}

=== FILE: wrappers.dfy ===
/** Failure-compatible datatypes used by the parser: `Option` for a value that
    may be absent and `Result` for a computation that may fail with an error. */
module Wrappers {

  datatype Option<+T> = None | Some(value: T) {

    predicate IsFailure() {
      None?
    }

    function PropagateFailure<U>(): Option<U>
      requires None?
    {
      None
    }

    function Extract(): T
      requires Some?
    {
      value
    }
  }

  datatype Result<+T, +E> = Success(value: T) | Failure(error: E) {

    predicate IsFailure() {
      Failure?
    }

    function PropagateFailure<U>(): Result<U, E>
      requires Failure?
    {
      Failure(error)
    }

    function Extract(): T
      requires Success?
    {
      value
    }
  }
}
